=== FILE: README.md ===
# code-reviewer-ai in Dafny

A model of the two halves of the AI code-review assistant.

- **Backend (`app.py`).** Five Flask endpoints answer in JSON, apart from Flask's error page. Four of them
  (review-code, fix-code, generate-tests and follow-up) build a prompt and
  ask a local language model through `call_ollama`. The fifth, format-code,
  runs black, prettier or sqlparse on the code instead. `clean_code_response`
  unwraps the Markdown code block the model answers fix and test requests
  with.
- **Frontend (`code-reviewer-ui-v1/src/App.jsx`).** A React component with
  one "Get AI Review" button. It posts the editor's code and language to the
  review endpoint, shows an "Analyzing your code..." panel while waiting, and renders the review as
  HTML or shows a fixed error message.

The model is functional. Strings are `seq<char>`. Each handler is a pure
function from request fields and oracle outcomes to a status and a JSON body.
The component is an immutable state record with transition functions.

| file | module | what it holds |
|---|---|---|
| `optional.dfy` | `Optional` | `Option` |
| `text.dfy` | `TextOps` | Python's `str.strip()` and `str.strip('`')`, the substring relation, joining and counting |
| `json.dfy` | `Json` | request field values (`Absent`, `Null`, `Text`) and `data.get` with and without a default |
| `clean.dfy` | `Clean` | `clean_code_response`, its regular expression written out by hand |
| `prompts.dfy` | `Prompts` | persona and test-framework lookups, the conversation-history renderer, the four prompts |
| `api.dfy` | `Api` | the five endpoints, with the model call and the formatters as parameters |
| `review_ui.dfy` | `ReviewUi` | the review component: Start, Complete, the Markdown effect, the panel conditions, runs of user and network events |
| `end_to_end.dfy` | `EndToEnd` | one click of the component through the review endpoint and back |

Modelling choices, all taken from the code:

- A JSON field is `Absent`, `Null` or `Text(s)`. `data.get(k)` reads both
  `Absent` and `Null` as `None`. `data.get(k, d)` only defaults an absent
  key, so an explicit `null` stays `None`.
- When a `None` is interpolated into an f-string it renders as "None".
- `call_ollama` is a parameter `Prompt -> ModelOutcome`. Its outcome is a
  reply, a `ConnectionError`, or any other exception with its text.
- The regular expression `^```(?:LANG)?\n([\s\S]*?)\n```$` (multi-line) is
  matched against the stripped answer. The optional language group is tried
  first, then a bare fence. The lazy body ends at the first "\n```" that is
  followed by the end of the text or by a newline.
- Error texts are the `str()` of the exceptions Python raises here:
  - `KeyError` gives `'role'` or `'content'`.
  - Iterating `None` gives `'NoneType' object is not iterable`.
  - `re.escape(None)` gives the `TypeError` text.
  - `.lower()` on a `null` language raises outside the `try`, so Flask
    answers with its 500 error page.
- The code keeps no session history, persists nothing, sanitises nothing,
  has no follow-up chat in the client and does not discard stale
  responses; none of this is modelled. The component's failure message is
  fixed and carries no HTTP status.

## Model

| member | source | states |
|---|---|---|
| TextOps.IsSpace | app.py:39 | the whitespace `strip()` removes includes space, tab, newline and carriage return, and no printable ASCII character such as the backtick |
| TextOps.TrimStart | app.py:39 | the leading characters removed are all of the stripped class, and the first one kept is not |
| TextOps.TrimEnd | app.py:39 | the trailing characters removed are all of the stripped class, and the last one kept is not |
| TextOps.TrimBoth | app.py:39-42 | `strip(chars)` leaves neither end in the class and returns a contiguous piece of its input |
| TextOps.Strip | app.py:39 | `strip()` leaves no Python whitespace at either end, and its result is a contiguous piece of the input |
| TextOps.StripBackticks | app.py:42 | `strip('`')` leaves no backtick at either end, and its result is a contiguous piece of the input |
| TextOps.TrimBothFramed | app.py:39-42 | wrapping a trimmed non-empty text in droppable characters on both sides and stripping gives that text back |
| TextOps.TrimBothAllDropped | app.py:42 | a text made only of droppable characters strips to the empty text |
| TextOps.TrimBothIdempotent | app.py:39-42 | stripping twice is the same as stripping once |
| TextOps.TrimBothNoneDropped | app.py:42 | a text with no droppable character is left unchanged |
| Clean.FirstClose | app.py:38 | the lazy body stops at the first line-ending closing fence from the given index: the index found is a fence and no earlier one is |
| Clean.MatchWithTag | app.py:38 | a match with a given tag needs the opening "```tag\n", and its group is a substring of the text |
| Clean.FenceBody | app.py:38-39 | group 1, when the regex matches, is a substring of the stripped answer, which starts with "```" |
| Clean.CleanCodeResponse | app.py:35-42 | the cleaned code is always a contiguous piece of the model's answer |
| Clean.CleanNotLonger | app.py:35-42 | the cleaned code is never longer than the answer |
| Clean.NoBacktickOnlyStripped | app.py:38-42 | an answer with no backtick only loses its surrounding whitespace |
| Clean.FenceBodyOfBlock | app.py:38 | on "```tag\nBODY\n```" followed by the end or a newline, group 1 is BODY when the tag is the requested language or empty |
| Clean.StripPadded | app.py:39 | an answer that starts with a fence loses exactly the whitespace around it |
| Clean.ExactFence | app.py:37-41 | an answer that is one fenced block plus surrounding whitespace, tagged with the language or bare, is unwrapped to its stripped body |
| Clean.FirstFenceWins | app.py:38-41 | with text after the first block, the first line-ending fence closes the match and the rest is dropped |
| Clean.OtherTagNoMatch | app.py:38 | an opening line with a different non-empty tag matches neither the tagged nor the bare alternative |
| Clean.OtherTagFallsBack | app.py:38-42 | a block tagged with another language does not match; the fallback only removes backticks and keeps the tag line in front |
| Json.Show | app.py:114 | an f-string prints a string field as itself and `None` as "None", so any other rendering comes from a string |
| Json.Truthy | app.py:144 | a field is truthy only as a non-empty string, which it then prints as |
| Json.GetOr | app.py:202-203 | `data.get(key, default)` gives the default only for a missing key and otherwise keeps the value, `null` included |
| Prompts.PersonaIntro | app.py:49-55 | a name in the persona table selects the persona with that key; any other name selects Standard |
| Prompts.PersonaKeyRoundTrip | app.py:49-55 | each persona's own key selects that persona's intro |
| Prompts.PersonaSelection | app.py:49-55 | Beginner, Security and Performance are each chosen exactly by their own key; every other name falls back to Standard |
| Prompts.TestFramework | app.py:91-95 | "python" gives pytest, "javascript" gives Jest, and only the other languages get the generic framework |
| Prompts.RoleLabel | app.py:113 | the label is "User" exactly when the role is the string "user", and "You" otherwise |
| Prompts.HistoryLine | app.py:113-114 | a line starts with its role's label ("User" for a user message, "You" otherwise, so "U" exactly for a user message), holds ": " and the printed content after the label, and ends with its newline |
| Prompts.RenderHistory | app.py:111-114 | the history renders exactly when every message has both keys, and it is then the messages' lines joined in order |
| Prompts.RaisedAtFirstMissing | app.py:112-114 | a message without a key raises the `KeyError` of the first such message, checking role before content |
| Prompts.HistoryAppend | app.py:111-114 | the history of two conversations placed one after the other is the concatenation of their histories |
| Prompts.HistoryLineAt | app.py:112-114 | message i's line sits in the history right after the lines of the messages before it |
| Prompts.EmptyHistory | app.py:111 | an empty conversation gives an empty history |
| Prompts.HistoryNewlines | app.py:114 | when no content holds a newline, the history has exactly one newline per message |
| Prompts.ReviewPrompt | app.py:47-69 | the review prompt carries the code and language as given, with the intro the persona name selects, Standard for an unknown name |
| Prompts.FixPrompt | app.py:71-87 | the fix prompt carries the code, the language and the review |
| Prompts.TestsPrompt | app.py:89-107 | the tests prompt carries the code and language and names pytest exactly for "python", Jest exactly for "javascript", and the generic framework otherwise |
| Prompts.FollowUpPrompt | app.py:109-133 | a missing conversation raises "not iterable"; otherwise the prompt is built exactly when every message has both keys, a failure carries the history's `KeyError` text, and the prompt carries the code, language, review and full history |
| Api.Lower | app.py:142 | lower-casing keeps the length and leaves no upper-case ASCII letter |
| Api.LowerSpec | app.py:142 | the lower-cased language keeps its length, turns each upper-case ASCII letter into its lower-case letter, and keeps every other character |
| Api.LowerIdempotent | app.py:142 | lower-casing twice is the same as lower-casing once |
| Api.ReviewPlan | app.py:139-148 | a `null` language gives a 500 error page; missing or empty code gives 400 "No code provided" before any prompt; otherwise the model is asked about the code, with the defaults applied |
| Api.ReviewFinish | app.py:149-155 | 200 exactly when the model replied, with that reply; a connection failure gives 500 with the connection message; any other failure is hidden behind the fixed server message |
| Api.ReviewCode | app.py:138-155 | the status is 200, 400 or 500; an early answer is returned as planned, and otherwise the answer is the one for the model's outcome on the planned prompt, so a reply gives 200 with it; 400 exactly for a non-null language with no code |
| Api.NoCodeNeverConsults | app.py:144-145 | a request with no code gets the same 400 answer whatever the model would say |
| Api.ReviewDefaults | app.py:142-143 | leaving out language and persona is the same as sending "python" and "Standard" |
| Api.ReviewLanguageCaseInsensitive | app.py:142 | review treats a language and its lower-cased form the same |
| Api.UnknownPersonaIsStandard | app.py:143-148 | a `null` persona, or one outside the table, reviews the same as "Standard" |
| Api.FixCode | app.py:157-169 | 200 exactly when a language was sent and the model replied, with `clean_code_response(reply, language)`, a substring of the reply; with no language the reply still arrives but cleaning fails with the `re.escape` error; a connection failure gives its message and any other failure "An unexpected error occurred: " and its text |
| Api.FixFencedReply | app.py:164-165 | a reply that is one code block in the requested language gives 200 with the block's stripped body |
| Api.FixPlainReply | app.py:164-165 | a reply without backticks gives 200 with the reply stripped |
| Api.TestsAskFramework | app.py:171-176 | the prompt names pytest exactly for "python", Jest exactly for "javascript", and the generic framework when no language was sent |
| Api.GenerateTests | app.py:171-183 | 200 exactly when a language was sent and the model replied, with `clean_code_response(reply, language)`; with no language cleaning fails with the `re.escape` error; a connection failure gives its message and any other failure "An unexpected error occurred: " and its text |
| Api.TestsFencedReply | app.py:177-179 | a reply that is one code block in the requested language gives 200 with the block's stripped body |
| Api.FollowUp | app.py:185-196 | a missing conversation gives 500 "not iterable"; a prompt that cannot be built gives 500 with its error; 200 exactly when the prompt is built and the model replies, with the reply; a connection failure gives its message and any other failure "An unexpected error occurred: " and its text |
| Api.FollowUpCarriesHistory | app.py:188-190 | every message sent reaches the model's prompt, in order, one history line each |
| Api.FollowUpMissingKey | app.py:185-196 | a message without a key gives 500 with that `KeyError`, and the model is not asked |
| Api.FormatCode | app.py:199-222 | 400 "Unsupported language: X" exactly when a language outside python, javascript and sql is sent (or `null`); for python, javascript or sql the formatter of that language runs on the code, giving 200 with its output or 500 with its error text; with no language the python formatter decides |
| Api.FormatUsesOnlyChosenFormatter | app.py:202-217 | the answer depends only on the formatter of the language sent (python by default), applied to the code sent |
| Api.FormatDefaultsToPython | app.py:203 | sending no language is the same as sending "python" |
| Api.FormatMissingCode | app.py:202 | sending no code is the same as sending the empty text |
| Api.UnsupportedNeverFormats | app.py:218-219 | for an unsupported language the answer does not depend on any formatter |
| Api.FormatIsCaseSensitive | app.py:203-219 | "Python" is refused by the formatter but reviewed as "python" |
| ReviewUi.Initial | code-reviewer-ui-v1/src/App.jsx:6-11 | the first render shows the sample code with "python" selected, is not loading, and has no error, review or markup |
| ReviewUi.Start | code-reviewer-ui-v1/src/App.jsx:23-33 | starting sets loading, clears the error and the review, and sends exactly the current code and language |
| ReviewUi.Complete | code-reviewer-ui-v1/src/App.jsx:35-45 | a 2xx JSON answer sets the review and keeps the error; any other outcome sets the fixed failure message; loading always ends |
| ReviewUi.Derive | code-reviewer-ui-v1/src/App.jsx:13-21 | the markup is empty for an empty review and the parse of the review otherwise; nothing else changes |
| ReviewUi.Render | code-reviewer-ui-v1/src/App.jsx:89-122 | "Analyzing your code..." shows exactly while loading and the button is enabled exactly when it does not; the error panel shows exactly for a non-empty error; markup shows exactly when there is some, and "Ready for Review" never shows with a review, the "Analyzing" panel or the error panel |
| ReviewUi.StaleMarkupBeforeEffect | code-reviewer-ui-v1/src/App.jsx:13-33 | right after a click the previous markup still shows next to "Analyzing", until the effect clears it |
| ReviewUi.DeriveIdempotent | code-reviewer-ui-v1/src/App.jsx:13-21 | running the effect again after it has run changes nothing |
| ReviewUi.Step | code-reviewer-ui-v1/src/App.jsx:70-91 | requests are only appended, one exactly for a click on the enabled button, carrying the code and language shown; an edit or a language pick changes only its own field, leaving the review, the error, loading and the requests in flight as they were; the markup matches the review after the effect |
| ReviewUi.StepKeepsInv | code-reviewer-ui-v1/src/App.jsx:13-45 | every user or network event keeps the invariant: one request in flight exactly while loading, no review or error while loading, only the fixed error, markup matching the review |
| ReviewUi.RunKeepsInv | code-reviewer-ui-v1/src/App.jsx:13-45 | any sequence of events keeps that invariant |
| ReviewUi.SingleRequestInFlight | code-reviewer-ui-v1/src/App.jsx:89-91 | from the first render, at most one review request is ever in flight, and one is exactly while loading |
| ReviewUi.ClickSends | code-reviewer-ui-v1/src/App.jsx:23-33 | a click on the enabled button sends exactly one request with the code and language shown |
| ReviewUi.ClickWhileLoadingIgnored | code-reviewer-ui-v1/src/App.jsx:89-91 | a click while loading changes nothing and sends nothing |
| ReviewUi.PlaceholderExactly | code-reviewer-ui-v1/src/App.jsx:115-120 | "Ready for Review" shows exactly when not loading, with no error and an empty review, and never alongside another panel |
| ReviewUi.LoadingView | code-reviewer-ui-v1/src/App.jsx:89-108 | while loading, once the effect has run, only the "Analyzing" panel shows and the button is disabled |
| ReviewUi.IdleView | code-reviewer-ui-v1/src/App.jsx:89-114 | once nothing is loading, "Analyzing your code..." is gone and the button is enabled; the error panel shows exactly when there is an error |
| ReviewUi.FailureView | code-reviewer-ui-v1/src/App.jsx:40-45 | a failed completion shows the error panel with the fixed message, with no markup and no placeholder |
| ReviewUi.SuccessView | code-reviewer-ui-v1/src/App.jsx:35-38 | a successful completion shows the returned review with no error, and the placeholder only if that review is empty |
| EndToEnd.SelectorLanguagesAreLower | code-reviewer-ui-v1/src/App.jsx:75-77 | the selector's languages are unchanged by the backend's lower-casing |
| EndToEnd.ComponentRequestPrompt | code-reviewer-ui-v1/src/App.jsx:29-33 | a request from the component asks the model about the code as typed, in the selected language, with the Standard intro |
| EndToEnd.AsCompletion | code-reviewer-ui-v1/src/App.jsx:29-38 | the component sees the backend's status, accepts the answer exactly for a 2xx status that is not Flask's error page, and reads a review only from a review body |
| EndToEnd.RoundTripOutcome | code-reviewer-ui-v1/src/App.jsx:23-45 | one click with an empty editor ends in the error message; otherwise the review shown is the model's reply, and a model failure ends in the error message |

## Left out

- `call_ollama` transport, timeout and JSON decoding (app.py:19-33) are network I/O. They are the `ModelOutcome` parameter. The "No response from model." default for a body without `response` is one possible `Reply` text.
- The formatter bodies of `format_code` (black, prettier through a temp file and a subprocess, sqlparse) are foreign calls and file I/O. They are the `FormatOutcome` parameter.
- The wording of the prompts and the four persona intro sentences are fixed text. A `Prompt` records the values each f-string interpolates, and a `Persona` stands for its intro sentence.
- Prompts.FollowUpPrompt: the prompt states the code, language, review and history, but not the surrounding instruction text.
- Flask routing, CORS, `request.get_json` and `app.run` are framework surface. A request is a record of its string fields. Non-string JSON values such as numbers or lists are not modelled. A `conversation` is either a list of messages or missing/`null`.
- Api.Lower: `str.lower()` is modelled for ASCII letters only, as for `Api.LowerSpec`.
- Api.LowerSpec: `str.lower()` is modelled for ASCII letters only. Unicode case mapping is not modelled.
- `fetch`, `marked.parse`, the Monaco editor and the JSX layout are library surface. The Markdown parser is a parameter of `ReviewUi.Derive`.
- No sanitiser runs before `dangerouslySetInnerHTML`, and none is modelled.
- ReviewUi.StepKeepsInv: each step applies the Markdown effect at its end, so the invariant's "markup matches the review" holds between steps. The render committed before the effect runs, where old markup can still show, is not a step. `ReviewUi.StaleMarkupBeforeEffect` describes that render.
- The `await` points inside `handleReviewRequest` are not interleaved. Start and Complete are atomic steps.
- ReviewUi.Complete: a 2xx JSON body without a `review` field sets `review` to `undefined`. The model reads that as the empty review, which renders the same way.
- The component's sample snippet is a parameter of `ReviewUi.Initial`.
- Console and server logging (`print`, `console.error`) are left out.

=== FILE: api.dfy ===
/**
 * The five Flask endpoints of app.py as decision functions from request
 * fields and oracle outcomes to an HTTP status and JSON body.  The model call
 * (`call_ollama`) and the code formatters are parameters: the handlers only
 * decide what to ask them and how to report what they answer.
 */
module Api {
  import opened Optional
  import opened TextOps
  import opened Json
  import opened Prompts
  import Clean

  /** What `call_ollama` yields: the model's text, its ConnectionError, or any other exception. */
  datatype ModelOutcome = Reply(text: string) | ConnectionFailure | OtherFailure(detail: string)

  /** The JSON body of a response; `ServerErrorPage` is Flask's page for an uncaught exception. */
  datatype Body =
    | ReviewJson(review: string)
    | ResultJson(result: string)
    | ResponseJson(response: string)
    | FormattedJson(formattedCode: string)
    | ErrorJson(error: string)
    | ServerErrorPage

  datatype HttpResponse = HttpResponse(status: int, body: Body)

  /** What a handler does before the model is called: answer at once, or ask the model. */
  datatype Plan = Respond(response: HttpResponse) | Consult(prompt: Prompt)

  /** `str(e)` of the ConnectionError `call_ollama` raises. */
  const ConnectionMessage: string := "Could not connect to the AI model at http://192.168.1.12:11434/api/generate."
  const NoCodeMessage: string := "No code provided"
  const ReviewFailureMessage: string := "An unexpected error occurred on the server."
  const UnexpectedPrefix: string := "An unexpected error occurred: "
  /** `str(e)` of the TypeError `re.escape(None)` raises when no language was sent. */
  const EscapeNoneText: string := "decoding to str: need a bytes-like object, NoneType found"

  /** `str.lower()` on ASCII letters. */
  function LowerChar(c: char): char {
    if 'A' <= c <= 'Z' then (c as int + 32) as char else c
  }

  /** `str.lower()` keeps the length and leaves no upper-case ASCII letter. */
  function Lower(s: string): (r: string)
    ensures |r| == |s|
    ensures forall i :: 0 <= i < |r| ==> !('A' <= r[i] <= 'Z')
  {
    seq(|s|, i requires 0 <= i < |s| => LowerChar(s[i]))
  }

  /** A lower-cased text has no upper-case ASCII letter and keeps every other character. */
  lemma LowerSpec(s: string)
    ensures |Lower(s)| == |s|
    ensures forall i :: 0 <= i < |s| ==> !('A' <= Lower(s)[i] <= 'Z')
    ensures forall i :: 0 <= i < |s| && !('A' <= s[i] <= 'Z') ==> Lower(s)[i] == s[i]
    ensures forall i :: 0 <= i < |s| && 'A' <= s[i] <= 'Z' ==> Lower(s)[i] == (s[i] as int + 32) as char
  {
  }

  /** Lower-casing twice is lower-casing once. */
  lemma LowerIdempotent(s: string)
    ensures Lower(Lower(s)) == Lower(s)
  {
  }

  // ---------------------------------------------------------------- review-code

  datatype ReviewRequest = ReviewRequest(code: Field, language: Field, persona: Field)

  /**
   * `review_code` up to the model call.  `data.get('language', 'python').lower()`
   * runs first and fails on an explicit null outside the try block; then a
   * falsy code is refused before any prompt is built.
   */
  function ReviewPlan(req: ReviewRequest): (r: Plan)
    ensures req.language.Null? ==> r == Respond(HttpResponse(500, ServerErrorPage))
    ensures !req.language.Null? && !Truthy(req.code) ==>
              r == Respond(HttpResponse(400, ErrorJson(NoCodeMessage)))
    ensures r.Consult? <==> !req.language.Null? && Truthy(req.code)
    ensures r.Consult? ==> r.prompt.ReviewAsk? && r.prompt.code == req.code.s
    ensures r.Consult? && req.language.Absent? ==> r.prompt.language == "python"
    ensures r.Consult? && req.language.Text? ==> r.prompt.language == Lower(req.language.s)
    ensures r.Consult? && !req.persona.Text? ==> r.prompt.intro == Standard
    ensures r.Consult? && req.persona.Text? ==> r.prompt.intro == PersonaIntro(req.persona.s)
  {
    var language := GetOr(req.language, "python");
    if language.Null? then
      Respond(HttpResponse(500, ServerErrorPage))
    else
      var persona := Show(GetOr(req.persona, "Standard"));
      if !Truthy(req.code) then
        Respond(HttpResponse(400, ErrorJson(NoCodeMessage)))
      else
        Consult(ReviewPrompt(req.code.s, Lower(language.s), persona))
  }

  /** `review_code` after the model call: a ConnectionError keeps its message, anything else is hidden. */
  function ReviewFinish(o: ModelOutcome): (r: HttpResponse)
    ensures r.status == 200 <==> o.Reply?
    ensures o.Reply? ==> r.body == ReviewJson(o.text)
    ensures !o.Reply? ==> r.status == 500 && r.body.ErrorJson?
    ensures o.ConnectionFailure? ==> r.body == ErrorJson(ConnectionMessage)
    ensures o.OtherFailure? ==> r.body.error == ReviewFailureMessage
  {
    match o
    case Reply(t) => HttpResponse(200, ReviewJson(t))
    case ConnectionFailure => HttpResponse(500, ErrorJson(ConnectionMessage))
    case OtherFailure(_) => HttpResponse(500, ErrorJson(ReviewFailureMessage))
  }

  /** `review_code`: POST /api/review-code. */
  function ReviewCode(req: ReviewRequest, model: Prompt -> ModelOutcome): (r: HttpResponse)
    ensures r.status == 200 || r.status == 400 || r.status == 500
    ensures !Truthy(req.code) ==> r.status != 200
    ensures r.status == 200 ==>
              r.body.ReviewJson? && ReviewPlan(req).Consult?
              && model(ReviewPlan(req).prompt) == Reply(r.body.review)
    ensures r.status == 400 <==> !req.language.Null? && !Truthy(req.code)
    ensures ReviewPlan(req).Respond? ==> r == ReviewPlan(req).response
    ensures ReviewPlan(req).Consult? ==> r == ReviewFinish(model(ReviewPlan(req).prompt))
  {
    match ReviewPlan(req)
    case Respond(resp) => resp
    case Consult(prompt) => ReviewFinish(model(prompt))
  }

  /** A missing or empty code is refused with 400 whatever the model would say: it is never asked. */
  lemma NoCodeNeverConsults(req: ReviewRequest, m1: Prompt -> ModelOutcome, m2: Prompt -> ModelOutcome)
    requires !req.language.Null? && !Truthy(req.code)
    ensures ReviewCode(req, m1) == ReviewCode(req, m2) == HttpResponse(400, ErrorJson(NoCodeMessage))
  {
  }

  /** Leaving out language and persona is the same as sending "python" and "Standard". */
  lemma ReviewDefaults(code: Field, model: Prompt -> ModelOutcome)
    ensures ReviewCode(ReviewRequest(code, Absent, Absent), model)
         == ReviewCode(ReviewRequest(code, Text("python"), Text("Standard")), model)
  {
    assert Lower("python") == "python";
  }

  /** The language is case-insensitive for review. */
  lemma ReviewLanguageCaseInsensitive(code: Field, language: string, persona: Field, model: Prompt -> ModelOutcome)
    ensures ReviewCode(ReviewRequest(code, Text(language), persona), model)
         == ReviewCode(ReviewRequest(code, Text(Lower(language)), persona), model)
  {
    LowerIdempotent(language);
  }

  /** A null persona, or a name outside the table, reviews like "Standard". */
  lemma UnknownPersonaIsStandard(code: Field, language: Field, persona: Field, model: Prompt -> ModelOutcome)
    requires !persona.Text? || persona.s !in Personas
    ensures ReviewCode(ReviewRequest(code, language, persona), model)
         == ReviewCode(ReviewRequest(code, language, Text("Standard")), model)
  {
  }

  // ---------------------------------------------------------------- fix-code

  datatype FixRequest = FixRequest(code: Field, language: Field, review: Field)

  /** The prompt `fix_code` always sends: missing fields render as "None". */
  function FixAskFor(req: FixRequest): Prompt {
    FixPrompt(Show(req.code), Show(req.language), Show(req.review))
  }

  /**
   * `fix_code`: POST /api/fix-code.  The model is always called; its answer
   * is cleaned with the requested language, and a missing language only
   * fails afterwards, in `re.escape(None)`.
   */
  function FixCode(req: FixRequest, model: Prompt -> ModelOutcome): (r: HttpResponse)
    ensures r.status == 200 || r.status == 500
    ensures r.status == 200 <==> req.language.Text? && model(FixAskFor(req)).Reply?
    ensures r.status == 200 ==>
              r.body == ResultJson(Clean.CleanCodeResponse(model(FixAskFor(req)).text, req.language.s))
    ensures r.status == 200 ==> IsInfix(r.body.result, model(FixAskFor(req)).text)
    ensures r.status == 500 ==> r.body.ErrorJson?
    ensures !req.language.Text? && model(FixAskFor(req)).Reply? ==>
              r.body == ErrorJson(UnexpectedPrefix + EscapeNoneText)
    ensures model(FixAskFor(req)).ConnectionFailure? ==> r.body == ErrorJson(ConnectionMessage)
    ensures model(FixAskFor(req)).OtherFailure? ==>
              r.body == ErrorJson(UnexpectedPrefix + model(FixAskFor(req)).detail)
  {
    match model(FixAskFor(req))
    case Reply(t) =>
      if req.language.Text? then HttpResponse(200, ResultJson(Clean.CleanCodeResponse(t, req.language.s)))
      else HttpResponse(500, ErrorJson(UnexpectedPrefix + EscapeNoneText))
    case ConnectionFailure => HttpResponse(500, ErrorJson(ConnectionMessage))
    case OtherFailure(d) => HttpResponse(500, ErrorJson(UnexpectedPrefix + d))
  }

  /**
   * A reply that is one code block in the requested language, up to
   * surrounding whitespace, is answered with that block's stripped body.
   */
  lemma FixFencedReply(req: FixRequest, model: Prompt -> ModelOutcome, pre: string, body: string, post: string)
    requires req.language.Text?
    requires model(FixAskFor(req)) == Reply(pre + Clean.Block(req.language.s, body, "") + post)
    requires AllOf(pre, Whitespace) && AllOf(post, Whitespace)
    requires Clean.NoClosingFence(body)
    ensures FixCode(req, model) == HttpResponse(200, ResultJson(Strip(body)))
  {
    Clean.ExactFence(model(FixAskFor(req)).text, req.language.s, pre, req.language.s, body, post);
  }

  /** A reply without any backtick is answered with the reply itself, stripped. */
  lemma FixPlainReply(req: FixRequest, model: Prompt -> ModelOutcome)
    requires req.language.Text? && model(FixAskFor(req)).Reply?
    requires '`' !in model(FixAskFor(req)).text
    ensures FixCode(req, model) == HttpResponse(200, ResultJson(Strip(model(FixAskFor(req)).text)))
  {
    Clean.NoBacktickOnlyStripped(model(FixAskFor(req)).text, req.language.s);
  }

  // ---------------------------------------------------------------- generate-tests

  datatype TestsRequest = TestsRequest(code: Field, language: Field)

  /** The prompt `generate_tests` always sends. */
  function TestsAskFor(req: TestsRequest): Prompt {
    TestsPrompt(Show(req.code), Show(req.language))
  }

  /** The framework named in the tests prompt follows the request's language. */
  lemma TestsAskFramework(req: TestsRequest)
    ensures TestsAskFor(req).framework == "pytest" <==> req.language == Text("python")
    ensures TestsAskFor(req).framework == "Jest" <==> req.language == Text("javascript")
    ensures !req.language.Text? ==> TestsAskFor(req).framework == DefaultFramework
  {
  }

  /** `generate_tests`: POST /api/generate-tests; the same error mapping as `fix_code`. */
  function GenerateTests(req: TestsRequest, model: Prompt -> ModelOutcome): (r: HttpResponse)
    ensures r.status == 200 || r.status == 500
    ensures r.status == 200 <==> req.language.Text? && model(TestsAskFor(req)).Reply?
    ensures r.status == 200 ==>
              r.body == ResultJson(Clean.CleanCodeResponse(model(TestsAskFor(req)).text, req.language.s))
    ensures r.status == 200 ==> IsInfix(r.body.result, model(TestsAskFor(req)).text)
    ensures r.status == 500 ==> r.body.ErrorJson?
    ensures !req.language.Text? && model(TestsAskFor(req)).Reply? ==>
              r.body == ErrorJson(UnexpectedPrefix + EscapeNoneText)
    ensures model(TestsAskFor(req)).ConnectionFailure? ==> r.body == ErrorJson(ConnectionMessage)
    ensures model(TestsAskFor(req)).OtherFailure? ==>
              r.body == ErrorJson(UnexpectedPrefix + model(TestsAskFor(req)).detail)
  {
    match model(TestsAskFor(req))
    case Reply(t) =>
      if req.language.Text? then HttpResponse(200, ResultJson(Clean.CleanCodeResponse(t, req.language.s)))
      else HttpResponse(500, ErrorJson(UnexpectedPrefix + EscapeNoneText))
    case ConnectionFailure => HttpResponse(500, ErrorJson(ConnectionMessage))
    case OtherFailure(d) => HttpResponse(500, ErrorJson(UnexpectedPrefix + d))
  }

  /**
   * A reply that is one code block in the requested language, up to
   * surrounding whitespace, is answered with that block's stripped body.
   */
  lemma TestsFencedReply(req: TestsRequest, model: Prompt -> ModelOutcome, pre: string, body: string, post: string)
    requires req.language.Text?
    requires model(TestsAskFor(req)) == Reply(pre + Clean.Block(req.language.s, body, "") + post)
    requires AllOf(pre, Whitespace) && AllOf(post, Whitespace)
    requires Clean.NoClosingFence(body)
    ensures GenerateTests(req, model) == HttpResponse(200, ResultJson(Strip(body)))
  {
    Clean.ExactFence(model(TestsAskFor(req)).text, req.language.s, pre, req.language.s, body, post);
  }

  // ---------------------------------------------------------------- follow-up

  /** `conversation` is None when the key is missing or null. */
  datatype FollowUpRequest = FollowUpRequest(code: Field, language: Field, review: Field,
                                             conversation: Option<seq<Message>>)

  function FollowUpAssembled(req: FollowUpRequest): Assembled {
    FollowUpPrompt(Show(req.code), Show(req.language), Show(req.review), req.conversation)
  }

  /**
   * `follow_up`: POST /api/follow-up.  A conversation that cannot be
   * rendered fails before the model is asked.
   */
  function FollowUp(req: FollowUpRequest, model: Prompt -> ModelOutcome): (r: HttpResponse)
    ensures r.status == 200 || r.status == 500
    ensures req.conversation.None? ==> r == HttpResponse(500, ErrorJson(UnexpectedPrefix + NotIterable))
    ensures r.status == 200 <==>
              FollowUpAssembled(req).Assembled? && model(FollowUpAssembled(req).prompt).Reply?
    ensures r.status == 200 ==>
              r.body == ResponseJson(model(FollowUpAssembled(req).prompt).text)
    ensures r.status == 500 ==> r.body.ErrorJson?
    ensures FollowUpAssembled(req).Failed? ==>
              r.body == ErrorJson(UnexpectedPrefix + FollowUpAssembled(req).error)
    ensures FollowUpAssembled(req).Assembled? && model(FollowUpAssembled(req).prompt).ConnectionFailure? ==>
              r.body == ErrorJson(ConnectionMessage)
    ensures FollowUpAssembled(req).Assembled? && model(FollowUpAssembled(req).prompt).OtherFailure? ==>
              r.body == ErrorJson(UnexpectedPrefix + model(FollowUpAssembled(req).prompt).detail)
  {
    match FollowUpAssembled(req)
    case Failed(e) => HttpResponse(500, ErrorJson(UnexpectedPrefix + e))
    case Assembled(prompt) =>
      match model(prompt)
      case Reply(t) => HttpResponse(200, ResponseJson(t))
      case ConnectionFailure => HttpResponse(500, ErrorJson(ConnectionMessage))
      case OtherFailure(d) => HttpResponse(500, ErrorJson(UnexpectedPrefix + d))
  }

  /** Every message the client sends reaches the model, in order, as one history line each. */
  lemma FollowUpCarriesHistory(req: FollowUpRequest)
    requires req.conversation.Some?
    requires forall i :: 0 <= i < |req.conversation.value| ==> HasKeys(req.conversation.value[i])
    ensures FollowUpAssembled(req).Assembled?
    ensures FollowUpAssembled(req).prompt.history == Join(Lines(req.conversation.value))
  {
  }

  /** A message without a role or content key fails with that KeyError; the model is not asked. */
  lemma FollowUpMissingKey(req: FollowUpRequest, i: int, model: Prompt -> ModelOutcome)
    requires req.conversation.Some?
    requires 0 <= i < |req.conversation.value| && !HasKeys(req.conversation.value[i])
    requires forall k :: 0 <= k < i ==> HasKeys(req.conversation.value[k])
    ensures FollowUp(req, model)
         == HttpResponse(500, ErrorJson(UnexpectedPrefix + MissingKeyError(req.conversation.value[i])))
  {
    RaisedAtFirstMissing(req.conversation.value, i);
  }

  // ---------------------------------------------------------------- format-code

  /** The three languages `format_code` has a formatter for; compared as sent, not lower-cased. */
  const FormattableLanguages: set<string> := {"python", "javascript", "sql"}

  datatype FormatRequest = FormatRequest(code: Field, language: Field)

  /** What black, prettier or sqlparse yields: formatted code, or the `str()` of its exception. */
  datatype FormatOutcome = Formatted(text: string) | FormatFailure(detail: string)

  /**
   * `format_code`: POST /api/format-code.  The formatter oracle gets the
   * chosen language and `data.get('code', '')`.
   */
  function FormatCode(req: FormatRequest, formatter: (string, Field) -> FormatOutcome): (r: HttpResponse)
    ensures r.status == 200 || r.status == 400 || r.status == 500
    ensures r.status == 400 <==>
              !(req.language.Absent? || (req.language.Text? && req.language.s in FormattableLanguages))
    ensures r.status == 400 ==> r.body == ErrorJson("Unsupported language: " + Show(req.language))
    ensures r.status == 200 ==> r.body.FormattedJson?
    ensures req.language.Absent? ==> (r.status == 200 <==> formatter("python", GetOr(req.code, "")).Formatted?)
    ensures req.language.Text? && req.language.s in FormattableLanguages ==>
              match formatter(req.language.s, GetOr(req.code, ""))
              case Formatted(t) => r == HttpResponse(200, FormattedJson(t))
              case FormatFailure(d) => r == HttpResponse(500, ErrorJson(d))
  {
    var code := GetOr(req.code, "");
    var language := GetOr(req.language, "python");
    if language.Text? && language.s in FormattableLanguages then
      match formatter(language.s, code)
      case Formatted(t) => HttpResponse(200, FormattedJson(t))
      case FormatFailure(d) => HttpResponse(500, ErrorJson(d))
    else
      HttpResponse(400, ErrorJson("Unsupported language: " + Show(language)))
  }

  /** For an unsupported language no formatter runs: the answer does not depend on it. */
  lemma UnsupportedNeverFormats(req: FormatRequest, f1: (string, Field) -> FormatOutcome,
                                f2: (string, Field) -> FormatOutcome)
    requires req.language.Text? && req.language.s !in FormattableLanguages
    ensures FormatCode(req, f1) == FormatCode(req, f2)
    ensures FormatCode(req, f1).status == 400
  {
  }

  /**
   * Unlike review, formatting compares the language as sent: "Python" is
   * reviewed as python but refused by the formatter.
   */
  lemma FormatIsCaseSensitive(code: Field, model: Prompt -> ModelOutcome, formatter: (string, Field) -> FormatOutcome)
    ensures FormatCode(FormatRequest(code, Text("Python")), formatter).status == 400
    ensures ReviewCode(ReviewRequest(code, Text("Python"), Absent), model)
         == ReviewCode(ReviewRequest(code, Text("python"), Absent), model)
  {
    assert "Python" !in FormattableLanguages;
    assert Lower("Python") == "python" by {
      assert LowerChar('P') == 'p';
    }
    ReviewLanguageCaseInsensitive(code, "Python", Absent, model);
  }

  /**
   * Only the formatter of the language sent (python when none is sent) is
   * consulted, and only on the code sent: two formatters that agree there
   * give the same answer.
   */
  lemma FormatUsesOnlyChosenFormatter(req: FormatRequest, f1: (string, Field) -> FormatOutcome,
                                      f2: (string, Field) -> FormatOutcome)
    requires var language := if req.language.Absent? then "python" else Show(req.language);
             f1(language, GetOr(req.code, "")) == f2(language, GetOr(req.code, ""))
    ensures FormatCode(req, f1) == FormatCode(req, f2)
  {
  }

  /** Sending no language is the same as sending "python". */
  lemma FormatDefaultsToPython(code: Field, formatter: (string, Field) -> FormatOutcome)
    ensures FormatCode(FormatRequest(code, Absent), formatter)
         == FormatCode(FormatRequest(code, Text("python")), formatter)
  {
  }

  /** Sending no code formats the empty text. */
  lemma FormatMissingCode(language: Field, formatter: (string, Field) -> FormatOutcome)
    ensures FormatCode(FormatRequest(Absent, language), formatter)
         == FormatCode(FormatRequest(Text(""), language), formatter)
  {
  }

}

=== FILE: clean.dfy ===
/**
 * `clean_code_response` (app.py): unwraps a model answer that is a single
 * Markdown code block.  `app.py` does this with the multi-line regular
 * expression  ^```(?:LANG)?\n([\s\S]*?)\n```$  anchored at the start of the
 * stripped text; here the match is written out by hand.
 */
module Clean {
  import opened Optional
  import opened TextOps

  const Fence: string := "```"

  /**
   * A closing fence begins at `j`: the text "\n```" followed by the end of
   * the text or by a newline (multi-line `$` matches before any '\n').
   */
  predicate ClosesAt(s: string, j: int) {
    && 0 <= j
    && j + 4 <= |s|
    && s[j] == '\n' && s[j + 1] == '`' && s[j + 2] == '`' && s[j + 3] == '`'
    && (j + 4 == |s| || s[j + 4] == '\n')
  }

  /** The first closing fence at or after `from`: the lazy `[\s\S]*?` stops there. */
  function FirstClose(s: string, from: nat): (r: Option<nat>)
    ensures r.Some? ==> from <= r.value && ClosesAt(s, r.value)
    ensures r.Some? ==> forall k :: from <= k < r.value ==> !ClosesAt(s, k)
    ensures r.None? ==> forall k :: from <= k ==> !ClosesAt(s, k)
    decreases |s| - from
  {
    if from + 4 > |s| then None
    else if ClosesAt(s, from) then Some(from)
    else FirstClose(s, from + 1)
  }

  /** The first closing fence is the only one that is not preceded by another. */
  lemma FirstCloseIs(s: string, from: nat, j: nat)
    requires from <= j && ClosesAt(s, j)
    requires forall k :: from <= k < j ==> !ClosesAt(s, k)
    ensures FirstClose(s, from) == Some(j)
  {
  }

  /** `s` opens with "```", then `tag`, then a newline. */
  predicate OpensWith(s: string, tag: string) {
    && |s| >= 4 + |tag|
    && s[..3] == Fence
    && s[3..3 + |tag|] == tag
    && s[3 + |tag|] == '\n'
  }

  /** The regex with the optional language group taken as `tag`. */
  function MatchWithTag(s: string, tag: string): (r: Option<string>)
    ensures r.Some? ==> OpensWith(s, tag) && IsInfix(r.value, s)
  {
    if !OpensWith(s, tag) then None
    else
      var close := FirstClose(s, 4 + |tag|);
      if close.None? then None
      else
        var j := close.value;
        assert ClosesAt(s, j);
        assert 4 + |tag| <= j;
        assert j <= |s|;
        InfixSlice(s, 4 + |tag|, j);
        Some(s[4 + |tag|..j])
  }

  /**
   * Group 1 of the regex: the greedy optional group tries the requested
   * language first and falls back to a bare fence.
   */
  function FenceBody(s: string, language: string): (r: Option<string>)
    ensures r.Some? ==> IsInfix(r.value, s)
    ensures r.Some? ==> |s| >= 3 && s[..3] == Fence
  {
    var tagged := MatchWithTag(s, language);
    if tagged.Some? then tagged else MatchWithTag(s, "")
  }

  /**
   * `clean_code_response(response_text, language)`.  The result is always a
   * contiguous piece of the input, so never longer than it.
   */
  function CleanCodeResponse(text: string, language: string): (r: string)
    ensures IsInfix(r, text)
  {
    var s := Strip(text);
    match FenceBody(s, language)
    case Some(body) =>
      InfixTrans(Strip(body), body, s);
      InfixTrans(Strip(body), s, text);
      Strip(body)
    case None =>
      InfixTrans(StripBackticks(s), s, text);
      StripBackticks(s)
  }

  /** The cleaned text is never longer than the model's answer. */
  lemma CleanNotLonger(text: string, language: string)
    ensures |CleanCodeResponse(text, language)| <= |text|
  {
    InfixShorter(CleanCodeResponse(text, language), text);
  }

  /** Stripping cannot introduce a backtick. */
  lemma StripKeepsNoBacktick(text: string)
    requires '`' !in text
    ensures forall i :: 0 <= i < |Strip(text)| ==> !Drops(Backtick, Strip(text)[i])
  {
    var s := Strip(text);
    forall i | 0 <= i < |s|
      ensures !Drops(Backtick, s[i])
    {
      if Drops(Backtick, s[i]) {
        InfixChars(s, text, s[i]);
      }
    }
  }

  /** With a fence match the answer is the stripped body. */
  lemma CleanOfBody(text: string, language: string, body: string)
    requires FenceBody(Strip(text), language) == Some(body)
    ensures CleanCodeResponse(text, language) == Strip(body)
  {
  }

  /** Without a fence match the answer falls back to shedding backticks. */
  lemma CleanWithoutFence(text: string, language: string)
    requires FenceBody(Strip(text), language).None?
    ensures CleanCodeResponse(text, language) == StripBackticks(Strip(text))
  {
  }

  /** A fence match needs a text that starts with a backtick. */
  lemma FenceOpensWithBacktick(s: string, language: string)
    ensures FenceBody(s, language).Some? ==> s != [] && s[0] == '`'
  {
    if FenceBody(s, language).Some? {
      assert s[..3] == Fence;
      assert s[0] == s[..3][0];
    }
  }

  /** A text without any backtick only loses its surrounding whitespace. */
  lemma NoBacktickOnlyStripped(text: string, language: string)
    requires '`' !in text
    ensures CleanCodeResponse(text, language) == Strip(text)
  {
    var s := Strip(text);
    StripKeepsNoBacktick(text);
    FenceOpensWithBacktick(s, language);
    assert s == [] || !Drops(Backtick, s[0]);
    CleanWithoutFence(text, language);
    TrimBothNoneDropped(s, Backtick);
  }

  /** The body holds no "\n```" that ends a line (it would close the block early). */
  ghost predicate NoClosingFence(body: string) {
    forall k :: !ClosesAt(body, k)
  }

  /** After a body without line-ending fences, the first fence is the one that follows it. */
  lemma FirstCloseAfterBody(s: string, from: nat, body: string, after: string)
    requires from <= |s|
    requires s[from..] == body + "\n" + Fence + after
    requires after == [] || after[0] == '\n'
    requires NoClosingFence(body)
    ensures FirstClose(s, from) == Some(from + |body|)
  {
    var j := from + |body|;
    assert s[j] == '\n' && s[j + 1] == '`' && s[j + 2] == '`' && s[j + 3] == '`' by {
      assert s[j..] == s[from..][|body|..] == "\n" + Fence + after;
    }
    assert j + 4 == |s| || s[j + 4] == after[0];
    assert ClosesAt(s, j);
    forall i | 0 <= i < |body|
      ensures s[from + i] == body[i]
    {
      assert s[from + i] == s[from..][i];
    }
    forall k | from <= k < j
      ensures !ClosesAt(s, k)
    {
      assert !ClosesAt(body, k - from);
    }
    FirstCloseIs(s, from, j);
  }

  /** A fenced block: opening fence with `tag`, the body, the closing fence, then `after`. */
  function Block(tag: string, body: string, after: string): string {
    Fence + tag + "\n" + body + "\n" + Fence + after
  }

  /** The regex's group 1 on an exactly fenced block is its body. */
  lemma FenceBodyOfBlock(s: string, language: string, tag: string, body: string, after: string)
    requires s == Block(tag, body, after)
    requires after == [] || after[0] == '\n'
    requires tag == language || (tag == "" && (language == "" || language[0] != '\n'))
    requires NoClosingFence(body)
    ensures FenceBody(s, language) == Some(body)
  {
    var from := 4 + |tag|;
    assert OpensWith(s, tag);
    assert s[from..] == body + "\n" + Fence + after;
    FirstCloseAfterBody(s, from, body, after);
    assert s[from..from + |body|] == body;
    if tag != language {
      assert s[3] == '\n';
      assert !OpensWith(s, language);
    }
  }

  /** Surrounding whitespace is what `strip()` removes from an answer that starts with a fence. */
  lemma StripPadded(pre: string, s: string, post: string)
    requires AllOf(pre, Whitespace) && AllOf(post, Whitespace)
    requires s != [] && s[0] == '`' && !IsSpace(s[|s| - 1])
    ensures Strip(pre + s + post) == s
  {
    TrimBothFramed(pre, s, post, Whitespace);
  }

  /**
   * An answer that is one fenced block, up to surrounding whitespace, whose
   * opening fence carries the requested tag or no tag and whose body has no
   * earlier line-ending fence, is unwrapped to its stripped body.
   */
  lemma ExactFence(text: string, language: string, pre: string, tag: string, body: string, post: string)
    requires text == pre + Block(tag, body, "") + post
    requires AllOf(pre, Whitespace) && AllOf(post, Whitespace)
    requires tag == language || (tag == "" && (language == "" || language[0] != '\n'))
    requires NoClosingFence(body)
    ensures CleanCodeResponse(text, language) == Strip(body)
  {
    var s := Block(tag, body, "");
    assert s[0] == '`' && s[|s| - 1] == '`';
    StripPadded(pre, s, post);
    FenceBodyOfBlock(s, language, tag, body, "");
    CleanOfBody(text, language, body);
  }

  /**
   * With several blocks, the FIRST line-ending fence closes the match: the
   * multi-line `$` accepts a fence that is followed by a newline, so text
   * after it (further blocks included) is dropped rather than included.
   */
  lemma FirstFenceWins(text: string, language: string, pre: string, tag: string, body: string,
                       after: string, post: string)
    requires text == pre + Block(tag, body, "\n" + after) + post
    requires AllOf(pre, Whitespace) && AllOf(post, Whitespace)
    requires after != [] && !IsSpace(after[|after| - 1])
    requires tag == language || (tag == "" && (language == "" || language[0] != '\n'))
    requires NoClosingFence(body)
    ensures CleanCodeResponse(text, language) == Strip(body)
  {
    var s := Block(tag, body, "\n" + after);
    assert s[0] == '`' && s[|s| - 1] == after[|after| - 1];
    StripPadded(pre, s, post);
    FenceBodyOfBlock(s, language, tag, body, "\n" + after);
    CleanOfBody(text, language, body);
  }

  /** An opening line with another, newline-free tag matches neither alternative of the regex. */
  lemma OtherTagNoMatch(s: string, language: string, tag: string, rest: string)
    requires s == Fence + tag + "\n" + rest
    requires tag != "" && tag != language
    requires '\n' !in tag && '\n' !in language
    ensures FenceBody(s, language) == None
  {
    assert s[3..3 + |tag|] == tag;
    assert s[3 + |tag|] == '\n';
    assert !OpensWith(s, language);
    assert s[3] == tag[0];
    assert tag[0] in tag;
    assert !OpensWith(s, "");
  }

  /** Shedding backticks from "```" + tag + "\n" + rest keeps tag and newline in front. */
  lemma BackticksKeepTag(s: string, tag: string, rest: string)
    requires s == Fence + tag + "\n" + rest
    requires tag != "" && tag[0] != '`'
    ensures |tag| < |StripBackticks(s)|
    ensures StripBackticks(s)[..|tag| + 1] == tag + "\n"
  {
    var u := s[3..];
    assert u == tag + "\n" + rest;
    assert s == Fence + u;
    TrimStartFramed(Fence, u, Backtick);
    KeepsThroughNewline(u, tag, rest);
  }

  lemma KeepsThroughNewline(u: string, tag: string, rest: string)
    requires u == tag + "\n" + rest
    ensures |tag| < |TrimEnd(u, Backtick)|
    ensures TrimEnd(u, Backtick)[..|tag| + 1] == tag + "\n"
  {
    var r := TrimEnd(u, Backtick);
    assert u[|tag|] == '\n';
    assert u[..|tag| + 1] == tag + "\n";
  }

  /**
   * A fence tagged with a language other than the requested one (and not
   * bare) is not unwrapped: the fallback keeps the tag text and only sheds
   * the surrounding backticks.
   */
  lemma OtherTagFallsBack(text: string, language: string, pre: string, tag: string, rest: string,
                           post: string)
    requires text == pre + (Fence + tag + "\n" + rest) + post
    requires AllOf(pre, Whitespace) && AllOf(post, Whitespace)
    requires rest != [] && !IsSpace(rest[|rest| - 1])
    requires tag != "" && tag != language
    requires '\n' !in tag && '\n' !in language
    ensures CleanCodeResponse(text, language) == StripBackticks(Fence + tag + "\n" + rest)
    ensures tag[0] != '`' ==> |tag| < |CleanCodeResponse(text, language)|
    ensures tag[0] != '`' ==> CleanCodeResponse(text, language)[..|tag| + 1] == tag + "\n"
  {
    var s := Fence + tag + "\n" + rest;
    assert s[0] == '`' && s[|s| - 1] == rest[|rest| - 1];
    StripPadded(pre, s, post);
    OtherTagNoMatch(s, language, tag, rest);
    CleanWithoutFence(text, language);
    if tag[0] != '`' {
      BackticksKeepTag(s, tag, rest);
    }
  }

}

=== FILE: end_to_end.dfy ===
/**
 * The review request across both halves: the body App.jsx sends, the
 * `review_code` handler's answer to it, and the completion the component
 * applies.
 */
module EndToEnd {
  import opened Optional
  import opened Json
  import opened Prompts
  import opened Api
  import opened ReviewUi

  /** The Flask view of `JSON.stringify({ code, language })`: the persona key is absent. */
  function AsReviewRequest(call: ReviewCall): ReviewRequest {
    ReviewRequest(Text(call.code), Text(call.language), Absent)
  }

  /**
   * How `fetch` sees a Flask response: the status, and a JSON body unless
   * Flask's error page.  The component accepts it exactly for a 2xx status
   * that is not the error page, and reads a review only from a review body.
   */
  function AsCompletion(resp: HttpResponse): (r: Completion)
    ensures r.Answered? && r.status == resp.status
    ensures Succeeds(r) <==> IsOk(resp.status) && !resp.body.ServerErrorPage?
    ensures ReviewOf(r.payload) == (if resp.body.ReviewJson? then resp.body.review else "")
  {
    Answered(resp.status,
             match resp.body
             case ReviewJson(t) => WithReview(t)
             case ServerErrorPage => NotJson
             case _ => WithoutReview)
  }

  /** The selector's languages reach the prompt unchanged by lower-casing. */
  lemma SelectorLanguagesAreLower(language: string)
    requires language in Languages
    ensures Lower(language) == language
  {
    if language == "python" {
      assert Lower("python") == "python";
    } else if language == "javascript" {
      assert Lower("javascript") == "javascript";
    } else {
      assert Lower("sql") == "sql";
    }
  }

  /**
   * The prompt a request from the component produces: the code as typed,
   * the language as selected, and, since no persona is sent, the Standard intro.
   */
  lemma ComponentRequestPrompt(s: UiState)
    requires CanStart(s) && s.code != ""
    requires s.language in Languages
    ensures ReviewPlan(AsReviewRequest(Start(s).call)) == Consult(ReviewAsk(Standard, s.language, s.code))
  {
    SelectorLanguagesAreLower(s.language);
  }

  /** One click's full round trip through the backend. */
  function RoundTrip(s: UiState, model: Prompt -> ModelOutcome): UiState
    requires CanStart(s)
  {
    var st := Start(s);
    Complete(st.state, AsCompletion(ReviewCode(AsReviewRequest(st.call), model)))
  }

  /**
   * An empty editor is refused by the backend and shows the error message;
   * otherwise the review shown is the model's reply, and any model failure
   * shows the error message.
   */
  lemma RoundTripOutcome(s: UiState, model: Prompt -> ModelOutcome)
    requires CanStart(s) && s.language in Languages
    ensures !RoundTrip(s, model).isLoading
    ensures s.code == "" ==> RoundTrip(s, model).error == Some(FailureMessage) && RoundTrip(s, model).review == ""
    ensures s.code != "" && model(ReviewAsk(Standard, s.language, s.code)).Reply? ==>
              RoundTrip(s, model).review == model(ReviewAsk(Standard, s.language, s.code)).text
              && RoundTrip(s, model).error == None
    ensures s.code != "" && !model(ReviewAsk(Standard, s.language, s.code)).Reply? ==>
              RoundTrip(s, model).error == Some(FailureMessage) && RoundTrip(s, model).review == ""
  {
    if s.code != "" {
      ComponentRequestPrompt(s);
    }
  }

}

=== FILE: json.dfy ===
/** Values of a JSON request body as the Flask handlers read them. */
module Json {

  /**
   * One string-valued field of a request body: missing, JSON `null`, or a
   * string.  `data.get(key)` reads both `Absent` and `Null` as Python `None`.
   */
  datatype Field = Absent | Null | Text(s: string)

  /**
   * How an f-string renders `data.get(key)`: a string prints as itself, and
   * `None` prints as "None", so only the string "None" looks like a missing value.
   */
  function Show(f: Field): (r: string)
    ensures f.Text? ==> r == f.s
    ensures r != "None" ==> f.Text?
  {
    if f.Text? then f.s else "None"
  }

  /**
   * Python truthiness of `data.get(key)`: only a non-empty string is true, so a
   * truthy field shows as its own non-empty text and `None` is never truthy.
   */
  predicate Truthy(f: Field): (b: bool)
    ensures b ==> f.Text? && Show(f) == f.s && Show(f) != ""
  {
    f.Text? && f.s != ""
  }

  /** `data.get(key, default)`: only a MISSING key takes the default; `null` stays `None`. */
  function GetOr(f: Field, default: string): (r: Field)
    ensures r.Absent? == false
    ensures f.Absent? ==> r == Text(default)
    ensures !f.Absent? ==> r == f
  {
    if f.Absent? then Text(default) else f
  }

  /** One entry of the `conversation` list: `msg['role']` and `msg['content']`. */
  datatype Message = Message(role: Field, content: Field)

}

=== FILE: optional.dfy ===
/** A value that may be missing: the result of a search that can fail. */
module Optional {

  datatype Option<+T> = None | Some(value: T)

}

=== FILE: prompts.dfy ===
/**
 * The prompt builders of app.py: the persona and test-framework tables with
 * their fallbacks, the rendering of the conversation history, and the four
 * prompt templates.
 */
module Prompts {
  import opened TextOps
  import opened Json
  import opened Optional

  /** The review styles the persona table knows. */
  datatype Persona = Standard | Beginner | Security | Performance

  /** The table key of each persona. */
  function Key(p: Persona): string {
    match p
    case Standard => "Standard"
    case Beginner => "Beginner"
    case Security => "Security"
    case Performance => "Performance"
  }

  /**
   * The `personas` dictionary.  Each entry stands for that persona's intro
   * sentence; the sentences themselves are wording and are not spelled out.
   */
  const Personas: map<string, Persona> :=
    map["Standard" := Standard, "Beginner" := Beginner,
        "Security" := Security, "Performance" := Performance]

  /**
   * `personas.get(persona, personas["Standard"])`: a name in the table selects
   * the persona with that key, and any other name the Standard one.
   */
  function PersonaIntro(persona: string): (r: Persona)
    ensures persona in Personas ==> Key(r) == persona
    ensures persona !in Personas ==> r == Standard
  {
    if persona in Personas then Personas[persona] else Personas["Standard"]
  }

  /** Looking up a persona's own key selects that persona. */
  lemma PersonaKeyRoundTrip(p: Persona)
    ensures PersonaIntro(Key(p)) == p
  {
  }

  /**
   * Each of Beginner, Security and Performance is selected by its own key
   * and by no other name; every other name, "Standard" included, falls back
   * to the Standard intro.
   */
  lemma PersonaSelection(persona: string)
    ensures PersonaIntro(persona) == Beginner <==> persona == "Beginner"
    ensures PersonaIntro(persona) == Security <==> persona == "Security"
    ensures PersonaIntro(persona) == Performance <==> persona == "Performance"
    ensures PersonaIntro(persona) == Standard <==>
              persona != "Beginner" && persona != "Security" && persona != "Performance"
  {
  }

  const DefaultFramework: string := "an appropriate testing framework"

  /** The `frameworks` dictionary of `create_generate_tests_prompt`. */
  const Frameworks: map<string, string> := map["python" := "pytest", "javascript" := "Jest"]

  /** `frameworks.get(language, "an appropriate testing framework")`. */
  function TestFramework(language: string): (r: string)
    ensures r == "pytest" <==> language == "python"
    ensures r == "Jest" <==> language == "javascript"
    ensures r == DefaultFramework <==> language != "python" && language != "javascript"
  {
    if language in Frameworks then Frameworks[language] else DefaultFramework
  }

  /** `"User" if msg['role'] == 'user' else "You"`. */
  function RoleLabel(role: Field): (r: string)
    ensures r == "User" <==> role == Text("user")
    ensures r == "You" <==> role != Text("user")
  {
    if role == Text("user") then "User" else "You"
  }

  /**
   * One history line, `f"{role}: {msg['content']}\n"`: it opens with the role's
   * label, so with "U" exactly for a user message, the content follows the
   * label and ": ", and the line ends with its newline.
   */
  function HistoryLine(m: Message): (r: string)
    ensures |r| == |RoleLabel(m.role)| + 2 + |Show(m.content)| + 1 && r[|r| - 1] == '\n'
    ensures r[..|RoleLabel(m.role)|] == RoleLabel(m.role)
    ensures r[0] == 'U' <==> m.role == Text("user")
    ensures InfixAt(": " + Show(m.content), r, |RoleLabel(m.role)|)
  {
    RoleLabel(m.role) + ": " + Show(m.content) + "\n"
  }

  /** The lines of a conversation, one per message, in order. */
  function Lines(conv: seq<Message>): (r: seq<string>)
    ensures |r| == |conv|
    ensures forall i :: 0 <= i < |conv| ==> r[i] == HistoryLine(conv[i])
  {
    seq(|conv|, i requires 0 <= i < |conv| => HistoryLine(conv[i]))
  }

  /** A message that has both keys the renderer subscripts. */
  predicate HasKeys(m: Message) {
    !m.role.Absent? && !m.content.Absent?
  }

  /** A text, or the `str()` of the Python exception that prevented it. */
  datatype Built = Built(text: string) | Raised(error: string)

  /** `str(KeyError(key))`. */
  function KeyErrorText(key: string): string {
    "'" + key + "'"
  }

  /** The error a message raises when rendered: its role is read first. */
  function MissingKeyError(m: Message): string {
    if m.role.Absent? then KeyErrorText("role") else KeyErrorText("content")
  }

  /**
   * The `history` loop of `create_follow_up_prompt`: the lines of all
   * messages, or the KeyError of the first message lacking a key.
   */
  function RenderHistory(conv: seq<Message>): (r: Built)
    ensures r.Built? <==> forall i :: 0 <= i < |conv| ==> HasKeys(conv[i])
    ensures r.Built? ==> r.text == Join(Lines(conv))
    decreases |conv|
  {
    if conv == [] then Built("")
    else if !HasKeys(conv[0]) then Raised(MissingKeyError(conv[0]))
    else
      var rest := RenderHistory(conv[1..]);
      JoinLinesCons(conv);
      KeysTail(conv);
      if rest.Raised? then rest else Built(HistoryLine(conv[0]) + rest.text)
  }

  /** The history text of a non-empty conversation is its first line followed by the rest. */
  lemma JoinLinesCons(conv: seq<Message>)
    requires conv != []
    ensures Join(Lines(conv)) == HistoryLine(conv[0]) + Join(Lines(conv[1..]))
  {
    assert Lines(conv)[1..] == Lines(conv[1..]) by {
      forall k | 0 <= k < |conv| - 1
        ensures Lines(conv)[1..][k] == Lines(conv[1..])[k]
      {
        assert conv[1..][k] == conv[k + 1];
      }
    }
  }

  /** Every message has both keys exactly when the first one and all later ones do. */
  lemma KeysTail(conv: seq<Message>)
    requires conv != []
    ensures (forall i :: 0 <= i < |conv| ==> HasKeys(conv[i]))
        <==> HasKeys(conv[0]) && (forall i :: 0 <= i < |conv[1..]| ==> HasKeys(conv[1..][i]))
  {
    assert forall i :: 0 < i < |conv| ==> conv[i] == conv[1..][i - 1];
  }

  /**
   * A conversation that cannot be rendered fails with the KeyError of its
   * first message lacking a key, role before content.
   */
  lemma {:induction false} RaisedAtFirstMissing(conv: seq<Message>, i: int)
    requires 0 <= i < |conv| && !HasKeys(conv[i])
    requires forall k :: 0 <= k < i ==> HasKeys(conv[k])
    ensures RenderHistory(conv) == Raised(MissingKeyError(conv[i]))
    decreases i
  {
    if i > 0 {
      assert HasKeys(conv[0]);
      assert conv[1..][i - 1] == conv[i];
      RaisedAtFirstMissing(conv[1..], i - 1);
    }
  }

  /** Rendering the history of two conversations one after the other concatenates them. */
  lemma HistoryAppend(a: seq<Message>, b: seq<Message>)
    requires forall i :: 0 <= i < |a| ==> HasKeys(a[i])
    requires forall i :: 0 <= i < |b| ==> HasKeys(b[i])
    ensures RenderHistory(a + b).Built?
    ensures RenderHistory(a + b).text == RenderHistory(a).text + RenderHistory(b).text
  {
    assert forall i :: 0 <= i < |a + b| ==> HasKeys((a + b)[i]) by {
      forall i | 0 <= i < |a + b| ensures HasKeys((a + b)[i]) {
        if i < |a| {
          assert (a + b)[i] == a[i];
        } else {
          assert (a + b)[i] == b[i - |a|];
        }
      }
    }
    LinesAppend(a, b);
    JoinAppend(Lines(a), Lines(b));
  }

  /** The lines of two conversations one after the other. */
  lemma LinesAppend(a: seq<Message>, b: seq<Message>)
    ensures Lines(a + b) == Lines(a) + Lines(b)
  {
    forall k | 0 <= k < |a + b|
      ensures Lines(a + b)[k] == (Lines(a) + Lines(b))[k]
    {
      if k >= |a| {
        assert (a + b)[k] == b[k - |a|];
      }
    }
  }

  /**
   * The line of message `i` stands in the history right after the lines of
   * the messages before it: one line per message, in conversation order.
   */
  lemma HistoryLineAt(conv: seq<Message>, i: int)
    requires forall k :: 0 <= k < |conv| ==> HasKeys(conv[k])
    requires 0 <= i < |conv|
    ensures InfixAt(HistoryLine(conv[i]), RenderHistory(conv).text, |RenderHistory(conv[..i]).text|)
  {
    var line := HistoryLine(conv[i]);
    var before, after := Lines(conv[..i]), Lines(conv[i + 1..]);
    LinesSplit(conv, i);
    PrefixRenders(conv, i);
    JoinMiddle(before, line, after);
    InfixAtMiddle(Join(before), line, Join(after));
  }

  /** The lines of a conversation split around message `i`. */
  lemma LinesSplit(conv: seq<Message>, i: int)
    requires 0 <= i < |conv|
    ensures Lines(conv) == Lines(conv[..i]) + ([HistoryLine(conv[i])] + Lines(conv[i + 1..]))
  {
    var a, b := Lines(conv[..i]), Lines(conv[i + 1..]);
    var whole := a + ([HistoryLine(conv[i])] + b);
    forall k | 0 <= k < |conv|
      ensures Lines(conv)[k] == whole[k]
    {
      if k < i {
        assert conv[..i][k] == conv[k];
      } else if k > i {
        assert conv[i + 1..][k - i - 1] == conv[k];
      }
    }
  }

  /** A prefix of a renderable conversation renders to the join of its lines. */
  lemma PrefixRenders(conv: seq<Message>, i: int)
    requires forall k :: 0 <= k < |conv| ==> HasKeys(conv[k])
    requires 0 <= i <= |conv|
    ensures RenderHistory(conv[..i]).Built?
    ensures RenderHistory(conv[..i]).text == Join(Lines(conv[..i]))
  {
    assert forall k :: 0 <= k < i ==> conv[..i][k] == conv[k];
  }

  /** An empty conversation renders as an empty history. */
  lemma EmptyHistory()
    ensures RenderHistory([]) == Built("")
  {
  }

  /**
   * When no message content holds a newline, the history has exactly one
   * newline per message.
   */
  lemma {:induction false} HistoryNewlines(conv: seq<Message>)
    requires forall k :: 0 <= k < |conv| ==> HasKeys(conv[k])
    requires forall k :: 0 <= k < |conv| ==> '\n' !in Show(conv[k].content)
    ensures Count(RenderHistory(conv).text, '\n') == |conv|
    decreases |conv|
  {
    if conv != [] {
      var m := conv[0];
      var who := RoleLabel(m.role);
      assert '\n' !in who;
      CountAbsent(who, '\n');
      CountAbsent(Show(m.content), '\n');
      CountAppend(who, ": ", '\n');
      CountAppend(who + ": ", Show(m.content), '\n');
      CountAppend(who + ": " + Show(m.content), "\n", '\n');
      HistoryNewlines(conv[1..]);
      CountAppend(HistoryLine(m), RenderHistory(conv[1..]).text, '\n');
    }
  }

  /**
   * A prompt as the values its f-string template interpolates.  The fixed
   * instructions around them are wording and are not spelled out.
   */
  datatype Prompt =
    | ReviewAsk(intro: Persona, language: string, code: string)
    | FixAsk(language: string, code: string, review: string)
    | TestsAsk(language: string, framework: string, code: string)
    | FollowUpAsk(language: string, code: string, review: string, history: string)

  /**
   * `create_review_prompt`: the code and language reach the prompt as given,
   * and the intro is the persona the name selects, Standard for an unknown name.
   */
  function ReviewPrompt(code: string, language: string, persona: string): (r: Prompt)
    ensures r.ReviewAsk? && r.code == code && r.language == language
    ensures persona in Personas ==> Key(r.intro) == persona
    ensures persona !in Personas ==> r.intro == Standard
  {
    ReviewAsk(PersonaIntro(persona), language, code)
  }

  /** `create_fix_code_prompt`: the code, the language and the review all reach the prompt. */
  function FixPrompt(code: string, language: string, review: string): (r: Prompt)
    ensures r.FixAsk? && r.code == code && r.language == language && r.review == review
  {
    FixAsk(language, code, review)
  }

  /**
   * `create_generate_tests_prompt`: the code and language reach the prompt, and
   * the framework named is pytest for "python", Jest for "javascript", and the
   * generic framework for every other language.
   */
  function TestsPrompt(code: string, language: string): (r: Prompt)
    ensures r.TestsAsk? && r.code == code && r.language == language
    ensures r.framework == "pytest" <==> language == "python"
    ensures r.framework == "Jest" <==> language == "javascript"
    ensures r.framework == DefaultFramework <==> language != "python" && language != "javascript"
  {
    TestsAsk(language, TestFramework(language), code)
  }

  const NotIterable: string := "'NoneType' object is not iterable"

  /** A prompt, or the `str()` of the exception raised while building it. */
  datatype Assembled = Assembled(prompt: Prompt) | Failed(error: string)

  /**
   * `create_follow_up_prompt`.  A missing or null conversation raises
   * TypeError and a message without a key raises KeyError; otherwise the
   * prompt carries the code, the language, the review and the whole history.
   */
  function FollowUpPrompt(code: string, language: string, review: string,
                          conversation: Option<seq<Message>>): (r: Assembled)
    ensures conversation.None? ==> r == Failed(NotIterable)
    ensures conversation.Some? ==>
              (r.Assembled? <==> forall i :: 0 <= i < |conversation.value| ==> HasKeys(conversation.value[i]))
    ensures r.Assembled? ==> r.prompt.FollowUpAsk? && r.prompt.history == Join(Lines(conversation.value))
    ensures r.Assembled? ==> r.prompt.code == code && r.prompt.language == language && r.prompt.review == review
    ensures conversation.Some? && r.Failed? ==> RenderHistory(conversation.value) == Raised(r.error)
  {
    if conversation.None? then Failed(NotIterable)
    else
      match RenderHistory(conversation.value)
      case Raised(e) => Failed(e)
      case Built(history) => Assembled(FollowUpAsk(language, code, review, history))
  }

}

=== FILE: review_ui.dfy ===
/**
 * The review panel of App.jsx as a state machine over an immutable record.
 * `handleReviewRequest` is split into two atomic steps, Start (the
 * synchronous resets before `fetch`) and Complete (the response or the
 * exception, then `finally`); the `useEffect` on `review` is Derive.
 */
module ReviewUi {
  import opened Optional

  /** The component's `useState` hooks; `error` null is `None`. */
  datatype UiState = UiState(code: string, language: string, review: string, isLoading: bool,
                             error: Option<string>, htmlReview: string)

  /** The language options of the selector. */
  const Languages: set<string> := {"python", "javascript", "sql"}

  const FailureMessage: string :=
    "Failed to get review. Please ensure the backend server is running and accessible."

  /** The first render: the sample snippet (a parameter here), python, nothing else. */
  function Initial(sample: string): (s: UiState)
    ensures !s.isLoading && s.error == None && s.review == "" && s.htmlReview == ""
    ensures s.code == sample && s.language == "python"
    ensures s.language in Languages
  {
    UiState(sample, "python", "", false, None, "")
  }

  /** The request body `JSON.stringify({ code, language })`: no persona is sent. */
  datatype ReviewCall = ReviewCall(code: string, language: string)

  /** `disabled={isLoading}`: the review button only fires when nothing is loading. */
  predicate CanStart(s: UiState) {
    !s.isLoading
  }

  datatype Started = Started(state: UiState, call: ReviewCall)

  /**
   * Start: `setIsLoading(true)`, `setError(null)`, `setReview('')`, then the
   * request is sent with the code and language of the moment.
   */
  function Start(s: UiState): (r: Started)
    requires CanStart(s)
    ensures r.state.isLoading && r.state.error == None && r.state.review == ""
    ensures r.state.code == s.code && r.state.language == s.language
    ensures r.state.htmlReview == s.htmlReview
    ensures r.call == ReviewCall(s.code, s.language)
  {
    var t := s.(isLoading := true, error := None, review := "");
    Started(t, ReviewCall(t.code, t.language))
  }

  /** What `response.json()` finds in a response body. */
  datatype Payload = NotJson | WithReview(review: string) | WithoutReview

  /** How the awaited `fetch` ends: a response with a status, or an exception. */
  datatype Completion = Answered(status: int, payload: Payload) | TransportFailure

  /** `response.ok`. */
  predicate IsOk(status: int) {
    200 <= status <= 299
  }

  /** The try block runs to `setReview`: a 2xx status and a JSON body. */
  predicate Succeeds(c: Completion) {
    c.Answered? && IsOk(c.status) && !c.payload.NotJson?
  }

  /** `data.review`; a missing field (`undefined`) is read as the empty review. */
  function ReviewOf(p: Payload): string {
    if p.WithReview? then p.review else ""
  }

  /**
   * Complete: a 2xx JSON answer sets `review`; a non-2xx status, a body that
   * is not JSON, or a transport exception sets the fixed error message;
   * `finally` clears `isLoading` either way.
   */
  function Complete(s: UiState, c: Completion): (r: UiState)
    requires s.isLoading
    ensures !r.isLoading
    ensures r.code == s.code && r.language == s.language && r.htmlReview == s.htmlReview
    ensures Succeeds(c) ==> r.review == ReviewOf(c.payload) && r.error == s.error
    ensures !Succeeds(c) ==> r.error == Some(FailureMessage) && r.review == s.review
  {
    var t := if Succeeds(c) then s.(review := ReviewOf(c.payload)) else s.(error := Some(FailureMessage));
    t.(isLoading := false)
  }

  /** The markup `htmlReview` should hold for a review, given the Markdown parser. */
  function HtmlOf(review: string, parse: string -> string): string {
    if review != "" then parse(review) else ""
  }

  /** Derive: the effect on `review` recomputes `htmlReview` and touches nothing else. */
  function Derive(s: UiState, parse: string -> string): (r: UiState)
    ensures r.htmlReview == HtmlOf(r.review, parse)
    ensures r.(htmlReview := s.htmlReview) == s
  {
    s.(htmlReview := HtmlOf(s.review, parse))
  }

  /** Deriving again after deriving changes nothing. */
  lemma DeriveIdempotent(s: UiState, parse: string -> string)
    ensures Derive(Derive(s, parse), parse) == Derive(s, parse)
  {
  }

  /** Which parts of the review panel render, and whether the button is enabled. */
  datatype View = View(analyzing: bool, errorShown: bool, placeholder: bool, rendered: bool,
                       buttonEnabled: bool)

  /** JavaScript truthiness of `error`. */
  predicate ErrorTruthy(s: UiState) {
    s.error.Some? && s.error.value != ""
  }

  /**
   * The JSX conditions of the review panel and the button: "Analyzing your
   * code..." shows exactly while loading and the button is enabled exactly
   * when it does not, the error panel shows exactly for a non-empty error,
   * markup shows exactly when there is some, and "Ready for Review" never
   * shows with a review, the "Analyzing" panel or the error panel.
   */
  function Render(s: UiState): (v: View)
    ensures v.analyzing <==> s.isLoading
    ensures v.errorShown <==> s.error.Some? && s.error.value != ""
    ensures v.buttonEnabled <==> !v.analyzing
    ensures v.rendered <==> s.htmlReview != ""
    ensures v.placeholder ==> s.review == "" && !v.analyzing && !v.errorShown
  {
    View(s.isLoading, ErrorTruthy(s), !s.isLoading && !ErrorTruthy(s) && s.review == "",
         s.htmlReview != "", !s.isLoading)
  }

  /**
   * The render that precedes the effect: right after a click the old markup
   * is still committed and shows next to the "Analyzing" panel; the effect
   * then clears it, leaving only that panel.
   */
  lemma StaleMarkupBeforeEffect(s: UiState, parse: string -> string)
    requires CanStart(s) && s.htmlReview != ""
    ensures Render(Start(s).state) == View(true, false, false, true, false)
    ensures Render(Derive(Start(s).state, parse)) == View(true, false, false, false, false)
  {
  }

  // ---------------------------------------------------------------- the running component

  /** The user's and the network's actions on the component. */
  datatype Event = EditCode(text: string) | PickLanguage(language: string) | ClickReview | Arrive(c: Completion)

  /**
   * The mounted component together with the requests it has sent and how
   * many of them are still unanswered.
   */
  datatype Running = Running(ui: UiState, inFlight: nat, sent: seq<ReviewCall>)

  /**
   * One action followed by the effect.  A click on the disabled button does
   * nothing, and a completion arrives only for a request in flight.  Requests
   * are only ever appended, one exactly for a click on the enabled button,
   * carrying the code and language shown; an edit or a language pick changes
   * only its own field; and the markup matches the review afterwards.
   */
  function Step(z: Running, e: Event, parse: string -> string): (r: Running)
    ensures r.ui.htmlReview == HtmlOf(r.ui.review, parse)
    ensures |z.sent| <= |r.sent| && r.sent[..|z.sent|] == z.sent
    ensures |r.sent| == |z.sent| + 1 <==> e.ClickReview? && CanStart(z.ui)
    ensures |r.sent| == |z.sent| + 1 ==> r.sent[|z.sent|] == ReviewCall(z.ui.code, z.ui.language)
    ensures !(e.ClickReview? && CanStart(z.ui)) ==> r.sent == z.sent
    ensures e.EditCode? ==>
              r.ui.code == e.text && r.inFlight == z.inFlight
              && r.ui.(code := z.ui.code, htmlReview := z.ui.htmlReview) == z.ui
    ensures e.PickLanguage? ==>
              r.ui.language == e.language && r.inFlight == z.inFlight
              && r.ui.(language := z.ui.language, htmlReview := z.ui.htmlReview) == z.ui
  {
    var next :=
      match e
      case EditCode(t) => z.(ui := z.ui.(code := t))
      case PickLanguage(l) => z.(ui := z.ui.(language := l))
      case ClickReview =>
        if CanStart(z.ui) then
          var st := Start(z.ui);
          Running(st.state, z.inFlight + 1, z.sent + [st.call])
        else z
      case Arrive(c) =>
        if z.inFlight > 0 && z.ui.isLoading then Running(Complete(z.ui, c), z.inFlight - 1, z.sent)
        else z;
    next.(ui := Derive(next.ui, parse))
  }

  function Run(z: Running, events: seq<Event>, parse: string -> string): Running
    decreases |events|
  {
    if events == [] then z else Run(Step(z, events[0], parse), events[1..], parse)
  }

  /**
   * What holds between any two actions: at most one request is in flight,
   * exactly while loading; while loading there is no review and no error;
   * the only error is the fixed message; the markup matches the review.
   */
  ghost predicate Inv(z: Running, parse: string -> string) {
    && z.inFlight == (if z.ui.isLoading then 1 else 0)
    && (z.ui.isLoading ==> z.ui.review == "" && z.ui.error == None)
    && (z.ui.error == None || z.ui.error == Some(FailureMessage))
    && z.ui.htmlReview == HtmlOf(z.ui.review, parse)
  }

  lemma StepKeepsInv(z: Running, e: Event, parse: string -> string)
    requires Inv(z, parse)
    ensures Inv(Step(z, e, parse), parse)
  {
  }

  lemma {:induction false} RunKeepsInv(z: Running, events: seq<Event>, parse: string -> string)
    requires Inv(z, parse)
    ensures Inv(Run(z, events, parse), parse)
    decreases |events|
  {
    if events != [] {
      StepKeepsInv(z, events[0], parse);
      RunKeepsInv(Step(z, events[0], parse), events[1..], parse);
    }
  }

  /** From the first render, whatever happens, at most one review request is ever in flight. */
  lemma SingleRequestInFlight(sample: string, events: seq<Event>, parse: string -> string)
    ensures Run(Running(Initial(sample), 0, []), events, parse).inFlight <= 1
    ensures Run(Running(Initial(sample), 0, []), events, parse).inFlight == 1
        <==> Run(Running(Initial(sample), 0, []), events, parse).ui.isLoading
  {
    RunKeepsInv(Running(Initial(sample), 0, []), events, parse);
  }

  /** Every click on the enabled button sends exactly one request, carrying the code and language shown. */
  lemma ClickSends(z: Running, parse: string -> string)
    requires Inv(z, parse) && !z.ui.isLoading
    ensures Step(z, ClickReview, parse).sent == z.sent + [ReviewCall(z.ui.code, z.ui.language)]
    ensures Step(z, ClickReview, parse).inFlight == 1
  {
  }

  /** A click while loading is ignored: nothing is sent and nothing changes. */
  lemma ClickWhileLoadingIgnored(z: Running, parse: string -> string)
    requires Inv(z, parse) && z.ui.isLoading
    ensures Step(z, ClickReview, parse) == z
  {
  }

  /**
   * "Ready for Review" shows exactly when nothing is loading, there is no
   * error and the review is empty; it never shows together with the
   * "Analyzing your code..." panel, the error or rendered markup.
   */
  lemma PlaceholderExactly(z: Running, parse: string -> string)
    requires Inv(z, parse)
    ensures Render(z.ui).placeholder <==> !z.ui.isLoading && z.ui.error == None && z.ui.review == ""
    ensures Render(z.ui).placeholder ==>
              !Render(z.ui).analyzing && !Render(z.ui).errorShown && !Render(z.ui).rendered
  {
  }

  /** While a request is in flight only the "Analyzing" panel shows and the button is disabled. */
  lemma LoadingView(z: Running, parse: string -> string)
    requires Inv(z, parse) && z.ui.isLoading
    ensures Render(z.ui) == View(true, false, false, false, false)
  {
  }

  /**
   * Once nothing is loading, "Analyzing your code..." is gone and the button
   * is enabled again; the error panel shows exactly when there is an error.
   */
  lemma IdleView(z: Running, parse: string -> string)
    requires Inv(z, parse) && !z.ui.isLoading
    ensures !Render(z.ui).analyzing && Render(z.ui).buttonEnabled
    ensures Render(z.ui).errorShown <==> z.ui.error.Some?
  {
  }

  /** After a failed completion the error panel shows, with no review markup and no placeholder. */
  lemma FailureView(z: Running, c: Completion, parse: string -> string)
    requires Inv(z, parse) && z.ui.isLoading && !Succeeds(c)
    ensures Step(z, Arrive(c), parse).ui.error == Some(FailureMessage)
    ensures Step(z, Arrive(c), parse).ui.review == ""
    ensures Render(Step(z, Arrive(c), parse).ui) == View(false, true, false, false, true)
  {
  }

  /** After a successful completion the review is the one returned, with no error. */
  lemma SuccessView(z: Running, c: Completion, parse: string -> string)
    requires Inv(z, parse) && z.ui.isLoading && Succeeds(c)
    ensures Step(z, Arrive(c), parse).ui.review == ReviewOf(c.payload)
    ensures Step(z, Arrive(c), parse).ui.error == None
    ensures Step(z, Arrive(c), parse).ui.htmlReview == HtmlOf(ReviewOf(c.payload), parse)
    ensures Render(Step(z, Arrive(c), parse).ui).placeholder <==> ReviewOf(c.payload) == ""
  {
  }

}

=== FILE: text.dfy ===
/**
 * Python's `str.strip()` and `str.strip(c)` over `seq<char>`, and the
 * substring relation the rest of the model states its bounds with.
 */
module TextOps {

  /**
   * The characters Python's `str.isspace` accepts, which `str.strip()` removes:
   * the usual blanks among them, and no printable ASCII character (so no backtick).
   */
  predicate IsSpace(c: char): (b: bool)
    ensures c == ' ' || c == '\t' || c == '\n' || c == '\r' ==> b
    ensures '!' <= c <= '~' ==> !b
  {
    || ('\t' <= c <= '\r')
    || ('\U{1C}' <= c <= '\U{1F}')
    || c == ' '
    || c == '\U{85}'
    || c == '\U{A0}'
    || c == '\U{1680}'
    || ('\U{2000}' <= c <= '\U{200A}')
    || c == '\U{2028}'
    || c == '\U{2029}'
    || c == '\U{202F}'
    || c == '\U{205F}'
    || c == '\U{3000}'
  }

  /** The characters a strip removes: `str.strip()` or `str.strip('`')`. */
  datatype CharClass = Whitespace | Backtick

  predicate Drops(k: CharClass, c: char) {
    match k
    case Whitespace => IsSpace(c)
    case Backtick => c == '`'
  }

  /** Every character of `s` belongs to class `k`. */
  predicate AllOf(s: string, k: CharClass) {
    forall i :: 0 <= i < |s| ==> Drops(k, s[i])
  }

  /** Neither end of `s` belongs to class `k`: stripping `k` leaves `s` as it is. */
  predicate Trimmed(s: string, k: CharClass) {
    s == [] || (!Drops(k, s[0]) && !Drops(k, s[|s| - 1]))
  }

  /** `t` occurs in `s` starting at index `i`. */
  predicate InfixAt(t: string, s: string, i: int) {
    0 <= i && i + |t| <= |s| && s[i..i + |t|] == t
  }

  /** `t` is a contiguous substring of `s`. */
  ghost predicate IsInfix(t: string, s: string) {
    exists i :: InfixAt(t, s, i)
  }

  /** Removes the longest prefix whose characters all satisfy `drop`. */
  function TrimStart(s: string, drop: CharClass): (r: string)
    ensures |r| <= |s| && r == s[|s| - |r|..]
    ensures forall i :: 0 <= i < |s| - |r| ==> Drops(drop, s[i])
    ensures r == [] || !Drops(drop, r[0])
    decreases |s|
  {
    if |s| > 0 && Drops(drop, s[0]) then
      var rest := TrimStart(s[1..], drop);
      assert forall i :: 0 < i < |s| ==> s[i] == s[1..][i - 1];
      rest
    else
      s
  }

  /** Removes the longest suffix whose characters all satisfy `drop`. */
  function TrimEnd(s: string, drop: CharClass): (r: string)
    ensures |r| <= |s| && r == s[..|r|]
    ensures forall i :: |r| <= i < |s| ==> Drops(drop, s[i])
    ensures r == [] || !Drops(drop, r[|r| - 1])
    decreases |s|
  {
    if |s| > 0 && Drops(drop, s[|s| - 1]) then
      var rest := TrimEnd(s[..|s| - 1], drop);
      rest
    else
      s
  }

  /** Both ends stripped of `drop` characters, as Python's `str.strip(chars)`. */
  function TrimBoth(s: string, drop: CharClass): (r: string)
    ensures Trimmed(r, drop)
    ensures IsInfix(r, s)
  {
    var t := TrimStart(s, drop);
    var r := TrimEnd(t, drop);
    SuffixPrefixInfix(s, t, r);
    r
  }

  /** A prefix of a suffix is a substring. */
  lemma SuffixPrefixInfix(s: string, t: string, r: string)
    requires |t| <= |s| && t == s[|s| - |t|..]
    requires |r| <= |t| && r == t[..|r|]
    ensures InfixAt(r, s, |s| - |t|)
  {
    var i := |s| - |t|;
    assert s[i..][..|r|] == s[i..i + |r|];
  }

  /** Python's `s.strip()`. */
  function Strip(s: string): (r: string)
    ensures Trimmed(r, Whitespace)
    ensures IsInfix(r, s)
  {
    TrimBoth(s, Whitespace)
  }

  /** Python's `s.strip('`')`. */
  function StripBackticks(s: string): (r: string)
    ensures Trimmed(r, Backtick)
    ensures IsInfix(r, s)
  {
    TrimBoth(s, Backtick)
  }

  lemma {:induction false} TrimStartFramed(p: string, x: string, drop: CharClass)
    requires AllOf(p, drop)
    requires x == [] || !Drops(drop, x[0])
    ensures TrimStart(p + x, drop) == x
    decreases |p|
  {
    if p == [] {
      assert p + x == x;
    } else {
      assert (p + x)[0] == p[0];
      assert (p + x)[1..] == p[1..] + x;
      TrimStartFramed(p[1..], x, drop);
    }
  }

  lemma {:induction false} TrimEndFramed(x: string, q: string, drop: CharClass)
    requires AllOf(q, drop)
    requires x == [] || !Drops(drop, x[|x| - 1])
    ensures TrimEnd(x + q, drop) == x
    decreases |q|
  {
    if q == [] {
      assert x + q == x;
    } else {
      var n := |q| - 1;
      assert (x + q)[|x + q| - 1] == q[n];
      assert (x + q)[..|x + q| - 1] == x + q[..n];
      TrimEndFramed(x, q[..n], drop);
    }
  }

  /**
   * The independent characterisation of stripping: surrounding a trimmed
   * text with droppable characters and stripping gives the text back.
   */
  lemma TrimBothFramed(p: string, x: string, q: string, drop: CharClass)
    requires AllOf(p, drop) && AllOf(q, drop)
    requires x != []
    requires Trimmed(x, drop)
    ensures TrimBoth(p + x + q, drop) == x
  {
    var xq := x + q;
    assert xq[0] == x[0];
    assert p + x + q == p + xq;
    TrimStartFramed(p, xq, drop);
    TrimEndFramed(x, q, drop);
    TrimBothUnfold(p + xq, drop);
  }

  lemma TrimBothUnfold(s: string, drop: CharClass)
    ensures TrimBoth(s, drop) == TrimEnd(TrimStart(s, drop), drop)
  {
  }

  /** A text that is all droppable characters strips to the empty text. */
  lemma TrimBothAllDropped(s: string, drop: CharClass)
    requires AllOf(s, drop)
    ensures TrimBoth(s, drop) == []
  {
  }

  /** A text with no droppable character at either end is left as it is. */
  lemma TrimBothTrimmed(s: string, drop: CharClass)
    requires Trimmed(s, drop)
    ensures TrimBoth(s, drop) == s
  {
    assert TrimStart(s, drop) == s;
    assert TrimEnd(s, drop) == s;
  }

  /** Stripping is idempotent. */
  lemma TrimBothIdempotent(s: string, drop: CharClass)
    ensures TrimBoth(TrimBoth(s, drop), drop) == TrimBoth(s, drop)
  {
    TrimBothTrimmed(TrimBoth(s, drop), drop);
  }

  /** A text without `drop` characters is left untouched by stripping. */
  lemma TrimBothNoneDropped(s: string, drop: CharClass)
    requires forall i :: 0 <= i < |s| ==> !Drops(drop, s[i])
    ensures TrimBoth(s, drop) == s
  {
    TrimBothTrimmed(s, drop);
  }

  /** The substring relation is transitive. */
  lemma InfixTrans(a: string, b: string, c: string)
    requires IsInfix(a, b) && IsInfix(b, c)
    ensures IsInfix(a, c)
  {
    var i :| InfixAt(a, b, i);
    var j :| InfixAt(b, c, j);
    assert c[j..j + |b|] == b;
    forall k | 0 <= k < |a|
      ensures c[j + i + k] == a[k]
    {
      assert a[k] == b[i + k];
      assert b[i + k] == c[j + i + k];
    }
    assert c[j + i..j + i + |a|] == a;
    assert InfixAt(a, c, j + i);
  }

  /** A substring is never longer than the text it is taken from. */
  lemma InfixShorter(t: string, s: string)
    requires IsInfix(t, s)
    ensures |t| <= |s|
  {
  }

  /** A character of a substring is a character of the text. */
  lemma InfixChars(t: string, s: string, c: char)
    requires IsInfix(t, s)
    requires c in t
    ensures c in s
  {
    var i :| InfixAt(t, s, i);
    var k :| 0 <= k < |t| && t[k] == c;
    assert s[i + k] == t[k];
  }

  /** A slice is a substring. */
  lemma InfixSlice(s: string, i: int, j: int)
    requires 0 <= i <= j <= |s|
    ensures IsInfix(s[i..j], s)
  {
    assert InfixAt(s[i..j], s, i);
  }

  /** The middle of a concatenation occurs right after its first part. */
  lemma InfixAtMiddle(a: string, t: string, b: string)
    ensures InfixAt(t, a + (t + b), |a|)
  {
    assert (a + (t + b))[|a|..|a| + |t|] == t;
  }

  /** Concatenation of a list of fragments, as `+=` builds the conversation history. */
  function Join(parts: seq<string>): string {
    if parts == [] then "" else parts[0] + Join(parts[1..])
  }

  /** Joining distributes over concatenation of fragment lists. */
  lemma {:induction false} JoinAppend(a: seq<string>, b: seq<string>)
    ensures Join(a + b) == Join(a) + Join(b)
    decreases |a|
  {
    if a == [] {
      assert a + b == b;
    } else {
      assert (a + b)[1..] == a[1..] + b;
      JoinAppend(a[1..], b);
    }
  }

  /** Joining around one fragment puts that fragment between the two joins. */
  lemma JoinMiddle(a: seq<string>, t: string, b: seq<string>)
    ensures Join(a + ([t] + b)) == Join(a) + (t + Join(b))
  {
    JoinAppend(a, [t] + b);
    assert ([t] + b)[1..] == b;
  }

  /** Number of occurrences of `c` in `s`. */
  function Count(s: string, c: char): nat {
    if s == [] then 0 else (if s[0] == c then 1 else 0) + Count(s[1..], c)
  }

  lemma {:induction false} CountAppend(a: string, b: string, c: char)
    ensures Count(a + b, c) == Count(a, c) + Count(b, c)
    decreases |a|
  {
    if a == [] {
      assert a + b == b;
    } else {
      assert (a + b)[1..] == a[1..] + b;
      CountAppend(a[1..], b, c);
    }
  }

  lemma {:induction false} CountAbsent(s: string, c: char)
    requires c !in s
    ensures Count(s, c) == 0
    decreases |s|
  {
    if s != [] {
      CountAbsent(s[1..], c);
    }
  }

}
